=== FILE: README.md ===
# whatzup session registry — a Dafny model

This project models the core of a multi-profile WhatsApp REST gateway. The
`WhatsAppManager` keeps two maps keyed by profile id: `clients` (the live
session handle) and `qrCodes` (the last pairing code the provider emitted).
On top of it sit the profile model's pairing-code acquisition (a branching
protocol with a bounded ten-step poll) and the ordering of registry calls in
profile create/update/delete. The model also covers the send façade's
destination formatting and the group/contact listing result shaping.

The provider (`whatsapp-web.js`) is opaque. Each operation takes what the
provider does as input:
- `during: seq<Event>`: the `qr`, `ready` and `message` events emitted while
  `initialize()` is awaited;
- `initError` / `destroyError: Option<string>`: whether `initialize()` or
  `destroy()` throws, and with what message;
- `pending: seq<seq<Event>>`: the events emitted during each one-second
  sleep of the poll (a missing batch means no events);
- `provider`, `chats`, `contacts`: what `sendMessage`, `getChats` and
  `getContacts` return or throw.

Each operation is a pure transition on an immutable `Registry` and returns
the new registry plus the `{success, message}` / `{success, data}` answer.
The profile operations also return the sequence of registry and database
calls they made, in order.

Modules, one per source file or component:
- `Outcomes`: `Option`, `Reply` (`{success, message}`), `Response` (`{success, data}` or a failure message), JavaScript truthiness of a string.
- `Text`: `endsWith` and the `\D` stripping used by the send façade.
- `Manager`: registry, provider events, `initClient`, lookups, `isAuthenticated`, `destroyClient`, `updateWebhook`.
- `Relay`: the webhook envelope and the POSTs an inbound message causes.
- `Profile`: create, update, delete, the poll, pairing-code acquisition.
- `Message`, `Group`, `Contact`: the send and listing façades.
- `Scenarios`: the model's contracts instantiated on literal inputs.

Modelling choices:
- `enableWebhook` is a `bool` standing for the JavaScript truthiness of the
  value the caller passed. The request validator accepts the strings "0" and
  "false" as booleans without converting them, and those strings are truthy,
  so they turn the webhook on; `Profile.Create` also echoes the raw value
  back. The model does not distinguish such values from `true`.
- The provider sets a handle's `info` when the session becomes ready, so a
  `ready` event sets `hasInfo`.
- The `qr` and `ready` handlers write the code cache for their profile id
  whether or not the handle has been stored yet, as the handlers do.
- `isAuthenticated` tests whether a code is *present* (`qrCodes.has`). The
  profile model tests whether the code is *truthy* (`if (!qrCode)`). A cached
  empty string therefore counts as "not authenticated" and also as "no code".
  `CodeReady` is the truthy test.

Behaviour of the code worth stating:
- `initClient` awaits `initialize()` to completion before storing the handle.
  There is no race between "ready" and "code issued".
- `destroyClient` removes the handle and the code only when `destroy()`
  returns. When it throws, nothing is purged. `FailedDestroyKeepsStaleHandle`
  shows what follows: the next acquisition's `initClient` is a no-op, and,
  unless the stale handle issues a code during the poll, the call times out
  with the stale handle still registered.
- When `initialize()` throws after the provider emitted a code, that code
  stays cached with no handle stored. The next acquisition's `initClient`
  stores a fresh handle, and unless that handle issues a code of its own
  first, the poll returns the stale code at its first iteration
  (`StaleCodeAfterFailedInit`).
- No disconnect or auth-failure handler is registered, so no provider event
  removes a handle.
- The send and listing façades check only that a handle exists, not that it
  is authenticated.
- There is no logout operation in the profile model or in the manager.

## Model

| member | source | states |
|---|---|---|
| `Text.Digits` | models/message.js:20 | the stripped string contains only digits, is no longer than the input, and is the input itself when the input is all digits |
| `Text.DigitsAppend` | models/message.js:20 | stripping distributes over concatenation, so the digits keep their original order |
| `Text.DigitsOfChar` | models/message.js:20 | a single character survives stripping iff it is an ASCII digit |
| `Manager.BoundListeners` | utils/whatsappManager.js:57-75 | a freshly bound handle has exactly one listener iff `enableWebhook && webhookUrl`, else none; the listener carries the profile id and the URL |
| `Manager.LastPairing` | utils/whatsappManager.js:41-54 | the result is a `qr`/`ready` event of the batch after which only messages follow; when there is none, every event is a message |
| `Manager.RunCache` | utils/whatsappManager.js:41-54 | after a batch of events the cache at the id holds the latest code when the last pairing event was `qr`, nothing when it was `ready`, and is untouched otherwise; other ids are never touched |
| `Manager.RunClient` | utils/whatsappManager.js:50-54 | a handle's listeners never change through events, and it has `info` iff it had it before or a `ready` occurred |
| `Manager.OnEvent` | utils/whatsappManager.js:41-54 | one event changes only the entries of its own id and never adds or removes a handle |
| `Manager.ApplyEvents` | utils/whatsappManager.js:41-54 | a batch of events on a stored handle follows the last pairing event in the cache, keeps the listeners, sets `info` iff a `ready` occurred, and touches no other id |
| `Manager.ApplyEventsSnoc` | utils/whatsappManager.js:41-54 | a batch of events is the same as its events applied one at a time |
| `Manager.QrKeepsLatest` | utils/whatsappManager.js:41-42 | two successive codes leave only the second cached |
| `Manager.ReadyClearsOwnCode` | utils/whatsappManager.js:50-53 | `ready` removes the cached code of its id and leaves every other id's code as it was |
| `Manager.InboundKeepsRegistry` | utils/whatsappManager.js:58-74 | an inbound message leaves the registry unchanged |
| `Manager.InitClient` | utils/whatsappManager.js:21-88 | on an existing id: "Client already initialized", nothing changes; if `initialize()` throws: no handle stored, failure with the error message, codes emitted before the throw stay cached; otherwise the handle is stored with 0/1 listener per the webhook guard and `info` iff `ready` occurred; other ids untouched |
| `Manager.GetClient` | utils/whatsappManager.js:91-93 | a handle is returned iff one is stored for the id, and it is the stored one |
| `Manager.GetQRCode` | utils/whatsappManager.js:96-98 | a code is returned iff one is cached for the id, and it is the cached one |
| `Manager.CodeReady` | models/profile.js:192-196 | the `!qrCode` test: a usable code exists iff one is cached for the id and it is not the empty string |
| `Manager.IsAuthenticated` | utils/whatsappManager.js:101-105 | authenticated iff a handle is stored for the id, it has `info`, and no code (empty or not) is cached for the id |
| `Manager.CachedCodeMeansNotAuthenticated` | utils/whatsappManager.js:101-105 | whenever a code is cached for the id, the id is not authenticated |
| `Manager.AuthenticationFollowsEvents` | utils/whatsappManager.js:101-105 | for a stored handle, a `qr` event makes it unauthenticated and a `ready` event makes it authenticated |
| `Manager.DestroyClient` | utils/whatsappManager.js:108-122 | absent id: "Client not found", no change; `destroy()` throws: failure with its message, no change; otherwise handle and code removed for the id only |
| `Manager.UpdateWebhook` | utils/whatsappManager.js:125-161 | absent id: "Client not found", no change; otherwise the handle ends with 0/1 listener per the new webhook guard whatever it had before, `info` and the code cache unchanged, other ids untouched |
| `Relay.Deliveries` | utils/whatsappManager.js:58-74 | an inbound message causes one POST per listener, in order, to the listener's URL, with an envelope copying `from`, `to`, `body` (as `message`) plus the profile id and timestamp |
| `Relay.RebindDeliversOnce` | utils/whatsappManager.js:132-154 | after rebinding twice, one inbound message causes exactly one POST, to the second URL |
| `Relay.DisabledDeliversNothing` | utils/whatsappManager.js:132-136 | after rebinding with the webhook off, an inbound message causes no POST |
| `Message.FormatPhone` | models/message.js:15-22 | the direct target always ends with `@c.us`; a target already suffixed is unchanged; otherwise it is the input's digits followed by `@c.us` |
| `Message.FormatPhoneDigitsOnly` | models/message.js:18-21 | an all-digit number just gets `@c.us` appended |
| `Message.FormatPhoneIdempotent` | models/message.js:15-22 | formatting a formatted direct target changes nothing |
| `Message.FormatGroup` | models/message.js:52-57 | the group target always ends with `@g.us`; a suffixed target is unchanged; otherwise it is the whole input followed by `@g.us` |
| `Message.FormatGroupIdempotent` | models/message.js:52-57 | formatting a formatted group target changes nothing |
| `Message.Send` | models/message.js:8-37 | without a handle: "WhatsApp client not initialized" and nothing sent; otherwise exactly the given target and body are sent, and the answer carries the provider's `id.id` and `timestamp` or its error message |
| `Message.SendPrivate` | models/message.js:5-39 | without a handle: "WhatsApp client not initialized", `sendMessage` never called; otherwise the formatted phone is sent and the provider's outcome is passed on unchanged |
| `Message.SendGroup` | models/message.js:42-74 | as `SendPrivate`, with the group target formatting |
| `Group.GroupsOf` | models/group.js:18-26 | no more entries than chats, every entry has `isGroup`, all chats kept when all are groups, none when none are |
| `Group.GroupsOfAppend` | models/group.js:18-21 | filtering and shaping distribute over concatenation, so groups keep the chats' order |
| `Group.GroupsOfMembers` | models/group.js:18-25 | an entry is in the output iff it is the shaping of some group chat of the input |
| `Group.SummarizeCounts` | models/group.js:22-25 | `id` and `name` copied, `isGroup` true, `participants` the list length when present, else 0 |
| `Group.GetAll` | models/group.js:5-36 | without a handle: "WhatsApp client not initialized" whatever the chats; a provider error is passed on; otherwise the chat list shaped by `GroupsOf` |
| `Contact.DisplayName` | models/contact.js:20 | the name is `name` if truthy, else `pushname` if truthy, else "Unknown", so never empty |
| `Contact.ContactsOf` | models/contact.js:18-24 | same length and order as the provider's list, `id` the serialized id, `number`, `isGroup`, `isWAContact` copied, name per `DisplayName` and never empty |
| `Contact.GetAll` | models/contact.js:5-34 | without a handle: "WhatsApp client not initialized" whatever the contacts; a provider error is passed on; otherwise the contact list shaped by `ContactsOf` |
| `Profile.Create` | models/profile.js:7-41 | no row inserted: "Failed to create profile" with no registry call; otherwise the insert is followed by `initClient`, whose result is ignored, and the answer carries the profile data |
| `Profile.Update` | models/profile.js:83-106 | no row affected: "Profile not found" with no registry call; otherwise `updateWebhook` is called after the update, its result ignored |
| `Profile.Delete` | models/profile.js:109-129 | `destroyClient` is called before the DB delete; the answer depends only on the affected rows, not on the destroy |
| `Profile.AdvanceShift` | models/profile.js:163-170 | a run of sleeps is the first sleep followed by the rest |
| `Profile.Final` | models/profile.js:192-201 | the final check answers the cached code iff a usable one is cached, else "Failed to generate QR code. Please try again.", leaving registry, calls and poll count as they were |
| `Profile.Poll` | models/profile.js:163-170 | the poll runs between 1 and 10 iterations, stops at the first iteration that finds a code, and runs all 10 only when no earlier one found a code |
| `Profile.GetQRCode` | models/profile.js:132-206 | no row: "Profile not found", no registry call; authenticated: refused, no destroy or init; handle with a cached code: that code, nothing changed, no polling; handle without code: destroy then init, then poll; no handle: init, never destroy, then poll; at most 10 polls; in both polling branches the final registry is the one the poll leaves after the (destroy and) init, the poll stopping at its first iteration with a code or after 10; success iff a code is cached at the final check, and it is that code |
| `Profile.QuietPollsNoCode` | models/profile.js:182-189 | starting without a usable code, sleeps during which no code is issued leave the cache without a usable code |
| `Profile.PollTimesOut` | models/profile.js:182-189 | starting without a usable code, when no code is issued during the ten sleeps, the poll runs all ten iterations and ends without a code |
| `Profile.PollFindsFirstCode` | models/profile.js:182-189 | starting without a usable code, when no code is issued before sleep k and a non-empty code is the last pairing event of sleep k, the poll stops after k+1 iterations holding that code |
| `Profile.AcquireTimesOut` | models/profile.js:171-201 | with no handle, no usable code cached, and no code issued during init or the ten sleeps, acquisition fails with "Failed to generate QR code" after 10 polls |
| `Profile.AcquireReturnsFirstCode` | models/profile.js:171-201 | with no handle, no usable code cached and no code issued during init, when no code is issued before sleep k and a non-empty code is the last pairing event of sleep k, acquisition returns that code after k+1 polls |
| `Profile.AcquireAfterDestroyReturnsFirstCode` | models/profile.js:152-170 | for an unauthenticated stale handle without a usable code whose `destroy()` succeeds, with no code issued during init, when no code is issued before sleep k and a non-empty code is the last pairing event of sleep k, acquisition returns that code after k+1 polls |
| `Profile.AcquireIdempotentWhileCached` | models/profile.js:147-152 | while a non-empty code is cached for a live handle, two acquisitions return the same code and never initialise |
| `Profile.FailedDestroyKeepsStaleHandle` | models/profile.js:152-170 | when `destroy()` throws, the following `initClient` is a no-op and, without a code from the stale handle, acquisition times out with that handle still registered |
| `Profile.AdvanceKeepsHandle` | models/profile.js:163-170 | events during the poll never add or remove the handle |
| `Scenarios.CodeBeforeReady` | utils/whatsappManager.js:41-83 | a code emitted during `initialize()` is cached, the handle is stored and the session is not authenticated |
| `Scenarios.ReadyWithoutCode` | utils/whatsappManager.js:50-105 | `ready` without a code leaves the session authenticated with no code cached |
| `Scenarios.SecondInitIsNoOp` | utils/whatsappManager.js:24-27 | a second `initClient` for the same id answers "Client already initialized" and keeps the first handle and its listener |
| `Scenarios.PlainNumberGetsSuffix` | models/message.js:18-21 | "15551234567" becomes "15551234567@c.us" |
| `Scenarios.PunctuationIsStripped` | models/message.js:18-21 | "+1-2" becomes "12@c.us" |
| `Scenarios.GroupIdKeepsCharacters` | models/message.js:55-57 | "1203-63" becomes "1203-63@g.us" |
| `Scenarios.DestroyPurgesBoth` | utils/whatsappManager.js:108-115 | a successful destroy leaves neither handle nor code for the id |
| `Scenarios.LateCodeTimesOut` | models/profile.js:182-196 | a code issued only during the eleventh sleep is never seen: acquisition fails |
| `Scenarios.SixthSleepCodeReturned` | models/profile.js:182-201 | a code issued during the sixth sleep is returned after six polls |
| `Scenarios.StaleCodeAfterFailedInit` | models/profile.js:171-201 | a code cached before a throwing `initialize()` outlives the failure, with no handle stored, and the next acquisition returns it after one poll |

## Left out

- Database access (`config/database.js`, the SQL in `models/profile.js`): reduced to "row exists" / "rows affected" inputs. A query that throws (caught into `{success: false, message}` by every profile operation) is not modelled.
- `Profile.getAll` and `Profile.getById`: pure database reads with no registry involvement.
- JWT issuance and verification (`generateToken`, `middlewares/auth.js`): library calls; the token is an opaque input of `Profile.Create`.
- Request validation, routing, controllers and HTTP status mapping, including the 15-second `Promise.race` timeout around pairing-code retrieval: HTTP plumbing and wall-clock concurrency.
- Logout: the controller calls a `Profile.logout` that exists neither in the profile model nor in the manager.
- Provider internals: Puppeteer, `LocalAuth` session directories, creation of the sessions directory, `qrcode-terminal` printing, and the actual `axios.post`. Delivery is an output (`Relay.Deliveries`); its failures are caught in the listener and never reach the registry.
- Real time: `setTimeout` sleeps are poll iterations; `new Date().toISOString()` is an opaque timestamp string.
- Overlapping calls: two concurrent `initClient` calls for one id can both pass the existence check before either stores a handle; every operation here is sequential.
- Events during `await client.destroy()` and during the database queries: provider events are delivered only while `initialize()` is awaited and during the poll's sleeps.
- Profile ids are opaque strings. In the source a lookup finds only handles stored under a key of the same JavaScript type. Create stores the handle under the numeric `insertId`; pairing-code retrieval calls `initClient` with the string route parameter and so stores it under a string key. Update, delete and pairing-code retrieval look handles up by the string route parameter, contact and group listing by the string query parameter, and the sends by the JSON body's `profileId`, which may be a number or a numeric string. A create-time handle and a retrieval-time handle for one profile can therefore coexist. None of this is modelled.
- The success messages of data-carrying answers ("Profile created successfully", "Message sent successfully", "Group message sent successfully") are not carried by `Response.Ok`.
- Exceptions outside the provider calls (a non-string phone, a provider result without `id`): caught into failures in the source; the model's inputs are well-typed.

=== FILE: contact.dfy ===
/** `Contact.getAll`: every provider contact shaped into
    `{id, name, number, isGroup, isWAContact}`. */
module Contact {
  import opened Outcomes
  import opened Manager

  datatype Contact = Contact(serializedId: string, name: Option<string>, pushname: Option<string>,
                             number: string, isGroup: bool, isWAContact: bool)

  datatype ContactSummary = ContactSummary(id: string, name: string, number: string, isGroup: bool, isWAContact: bool)

  const Unknown := "Unknown"

  /** `name || pushname || 'Unknown'`: the first truthy of the two names, so
      never empty. */
  function DisplayName(c: Contact): (r: string)
    ensures r != ""
    ensures Truthy(c.name) ==> r == c.name.value
    ensures !Truthy(c.name) && Truthy(c.pushname) ==> r == c.pushname.value
    ensures !Truthy(c.name) && !Truthy(c.pushname) ==> r == Unknown
  {
    if Truthy(c.name) then c.name.value
    else if Truthy(c.pushname) then c.pushname.value
    else Unknown
  }

  /** The shaped contact list: same length and order as the provider's,
      fields copied, the display name filled in. */
  function ContactsOf(cs: seq<Contact>): (r: seq<ContactSummary>)
    ensures |r| == |cs|
    ensures forall i :: 0 <= i < |r| ==>
              && r[i].id == cs[i].serializedId
              && r[i].name == DisplayName(cs[i])
              && r[i].number == cs[i].number
              && r[i].isGroup == cs[i].isGroup
              && r[i].isWAContact == cs[i].isWAContact
    ensures forall i :: 0 <= i < |r| ==> r[i].name != ""
  {
    if cs == [] then []
    else
      var c := cs[0];
      [ContactSummary(c.serializedId, DisplayName(c), c.number, c.isGroup, c.isWAContact)] + ContactsOf(cs[1..])
  }

  /** `Contact.getAll`: only the existence of a handle is checked; without
      one the contact list is not consulted. A provider error is passed on. */
  function GetAll(reg: Registry, profileId: ProfileId, contacts: Response<seq<Contact>>): (r: Response<seq<ContactSummary>>)
    ensures profileId !in reg.clients ==> r == Fail(NotInitialized)
    ensures profileId in reg.clients && contacts.Fail? ==> r == Fail(contacts.message)
    ensures profileId in reg.clients && contacts.Ok? ==> r == Ok(ContactsOf(contacts.data))
  {
    match GetClient(reg, profileId)
    case None => Fail(NotInitialized)
    case Some(_) =>
      match contacts
      case Ok(cs) => Ok(ContactsOf(cs))
      case Fail(e) => Fail(e)
  }
}

=== FILE: group.dfy ===
/** `Group.getAll`: the chat list filtered down to groups, each shaped into
    `{id, name, participants, isGroup}`. */
module Group {
  import opened Outcomes
  import opened Manager

  /** What is read of a provider chat; `participants` is missing on chats
      that carry no participant list. */
  datatype Chat = Chat(serializedId: string, name: string, isGroup: bool, participants: Option<seq<string>>)

  datatype GroupSummary = GroupSummary(id: string, name: string, participants: nat, isGroup: bool)

  function Summarize(chat: Chat): GroupSummary {
    GroupSummary(
      chat.serializedId,
      chat.name,
      if chat.participants.Some? then |chat.participants.value| else 0,
      true)
  }

  /** The group chats of `chats`, shaped, in their original order. */
  function GroupsOf(chats: seq<Chat>): (r: seq<GroupSummary>)
    ensures |r| <= |chats|
    ensures forall i :: 0 <= i < |r| ==> r[i].isGroup
    ensures (forall i :: 0 <= i < |chats| ==> chats[i].isGroup) ==> |r| == |chats|
    ensures (forall i :: 0 <= i < |chats| ==> !chats[i].isGroup) ==> r == []
  {
    if chats == [] then []
    else if chats[0].isGroup then [Summarize(chats[0])] + GroupsOf(chats[1..])
    else GroupsOf(chats[1..])
  }

  /** Filtering and shaping distribute over concatenation, so the relative
      order of the groups is the order of the chats. */
  lemma {:induction false} GroupsOfAppend(a: seq<Chat>, b: seq<Chat>)
    ensures GroupsOf(a + b) == GroupsOf(a) + GroupsOf(b)
  {
    if a == [] {
      assert a + b == b;
    } else {
      assert (a + b)[0] == a[0];
      assert (a + b)[1..] == a[1..] + b;
      GroupsOfAppend(a[1..], b);
    }
  }

  /** Every group chat appears in the output, with its id and name copied and
      its participant count; no other chat does. */
  lemma {:induction false} GroupsOfMembers(chats: seq<Chat>, g: GroupSummary)
    ensures g in GroupsOf(chats) <==> exists c :: c in chats && c.isGroup && Summarize(c) == g
  {
    if chats != [] {
      GroupsOfMembers(chats[1..], g);
      assert forall c :: c in chats <==> c == chats[0] || c in chats[1..];
    }
  }

  /** `participants` counts the list when there is one and is 0 otherwise. */
  lemma SummarizeCounts(chat: Chat)
    ensures Summarize(chat).isGroup
    ensures Summarize(chat).id == chat.serializedId && Summarize(chat).name == chat.name
    ensures chat.participants.None? ==> Summarize(chat).participants == 0
    ensures chat.participants.Some? ==> Summarize(chat).participants == |chat.participants.value|
  {
  }

  /** `Group.getAll`: only the existence of a handle is checked; without one
      the chat list is not consulted. A provider error is passed on. */
  function GetAll(reg: Registry, profileId: ProfileId, chats: Response<seq<Chat>>): (r: Response<seq<GroupSummary>>)
    ensures profileId !in reg.clients ==> r == Fail(NotInitialized)
    ensures profileId in reg.clients && chats.Fail? ==> r == Fail(chats.message)
    ensures profileId in reg.clients && chats.Ok? ==> r == Ok(GroupsOf(chats.data))
  {
    match GetClient(reg, profileId)
    case None => Fail(NotInitialized)
    case Some(_) =>
      match chats
      case Ok(cs) => Ok(GroupsOf(cs))
      case Fail(e) => Fail(e)
  }
}

=== FILE: manager.dfy ===
/** The per-profile session registry: two finite maps keyed by profile id,
    one holding the session handle, the other the last pairing (QR) code
    the provider emitted. The provider itself is opaque; what it does is
    given to each operation as input: the events it emits while a call is
    awaited, and whether `initialize()` or `destroy()` throws. */
module Manager {
  import opened Outcomes
  import opened Seqs

  type ProfileId = string

  /** An inbound-message listener that forwards to one webhook URL on behalf
      of one profile. */
  datatype Listener = Listener(profileId: ProfileId, url: string)

  /** What the model keeps of a session handle: whether the provider has set
      its `info` (done when the session becomes ready) and the message
      listeners this system attached to it. */
  datatype Client = Client(hasInfo: bool, messageListeners: seq<Listener>)

  datatype Registry = Registry(clients: map<ProfileId, Client>, qrCodes: map<ProfileId, string>)

  datatype InboundMessage = InboundMessage(from: string, to: string, body: string)

  /** An event one session handle emits: `qr`, `ready` or `message`. */
  datatype Event = Qr(code: string) | Ready | Inbound(message: InboundMessage)

  /** The registry after a manager call, and what the call resolved to. */
  datatype Step = Step(reg: Registry, reply: Reply)

  const Empty := Registry(map[], map[])

  const AlreadyInitialized := "Client already initialized"
  const Initialized := "Client initialized successfully"
  const ClientNotFound := "Client not found"
  const Destroyed := "Client destroyed successfully"
  const WebhookUpdated := "Webhook configuration updated successfully"

  /** What the query and send façades answer when `getClient` finds nothing. */
  const NotInitialized := "WhatsApp client not initialized"

  /** Both maps agree with each other everywhere except possibly at `id`. */
  predicate SameElsewhere(a: Registry, b: Registry, id: ProfileId) {
    && a.clients - {id} == b.clients - {id}
    && a.qrCodes - {id} == b.qrCodes - {id}
  }

  // ---------------------------------------------------------------------------
  // Webhook relay binding
  // ---------------------------------------------------------------------------

  /** The guard `enableWebhook && webhookUrl`. */
  predicate WebhookOn(webhookUrl: Option<string>, enableWebhook: bool) {
    enableWebhook && Truthy(webhookUrl)
  }

  /** The message listeners a freshly bound handle carries: one forwarding
      to `webhookUrl` when the webhook is on, none otherwise. */
  function BoundListeners(id: ProfileId, webhookUrl: Option<string>, enableWebhook: bool): (ls: seq<Listener>)
    ensures |ls| <= 1
    ensures |ls| == 1 <==> WebhookOn(webhookUrl, enableWebhook)
    ensures forall l :: l in ls ==> l.profileId == id && Some(l.url) == webhookUrl && l.url != ""
  {
    if WebhookOn(webhookUrl, enableWebhook) then [Listener(id, webhookUrl.value)] else []
  }

  // ---------------------------------------------------------------------------
  // Provider events
  // ---------------------------------------------------------------------------

  /** The `qr` and `ready` handlers' effect on the code cache: `qr` stores the
      code for the id, `ready` deletes it, a message leaves it alone. */
  function CacheStep(codes: map<ProfileId, string>, id: ProfileId, ev: Event): map<ProfileId, string> {
    match ev
    case Qr(code) => codes[id := code]
    case Ready => codes - {id}
    case Inbound(_) => codes
  }

  /** The provider sets the handle's `info` when it becomes ready. */
  function ClientStep(c: Client, ev: Event): Client {
    if ev.Ready? then c.(hasInfo := true) else c
  }

  /** The last `qr` or `ready` event of `evs`, if any. */
  function LastPairing(evs: seq<Event>): (e: Option<Event>)
    ensures e.Some? ==> e.value in evs && !e.value.Inbound?
    ensures e.Some? ==> exists i :: 0 <= i < |evs| && evs[i] == e.value && forall j :: i < j < |evs| ==> evs[j].Inbound?
    ensures e.None? ==> forall ev :: ev in evs ==> ev.Inbound?
  {
    if evs == [] then None
    else if !Last(evs).Inbound? then Some(Last(evs))
    else (PrefixLast(evs); LastPairing(Prefix(evs)))
  }

  /** The code cache for `id` after events whose last pairing event is
      `last`: untouched when there was none, the latest code after a `qr`,
      nothing after a `ready`. Other ids are never touched. */
  predicate PairingOutcome(before: map<ProfileId, string>, after: map<ProfileId, string>,
                           id: ProfileId, last: Option<Event>)
  {
    && after - {id} == before - {id}
    && match last
       case None => (id in after <==> id in before) && (id in before ==> after[id] == before[id])
       case Some(ev) =>
         match ev
         case Qr(code) => id in after && after[id] == code
         case _ => id !in after
  }

  /** The code cache after the handlers for `id` ran on `evs`, in order. */
  function RunCache(codes: map<ProfileId, string>, id: ProfileId, evs: seq<Event>): (r: map<ProfileId, string>)
    ensures PairingOutcome(codes, r, id, LastPairing(evs))
  {
    if evs == [] then codes
    else CacheStep(RunCache(codes, id, Prefix(evs)), id, Last(evs))
  }

  /** A handle after it emitted `evs`: its listeners are unchanged and it has
      `info` once it has been ready. */
  function RunClient(c: Client, evs: seq<Event>): (r: Client)
    ensures r.messageListeners == c.messageListeners
    ensures r.hasInfo == (c.hasInfo || Ready in evs)
  {
    if evs == [] then c
    else (PrefixLast(evs); ClientStep(RunClient(c, Prefix(evs)), Last(evs)))
  }

  /** One event emitted by the handle of `id` while it is live. The `qr` and
      `ready` handlers write the cache whether or not the handle has been
      stored yet. */
  function OnEvent(reg: Registry, id: ProfileId, ev: Event): (r: Registry)
    ensures SameElsewhere(r, reg, id)
    ensures id in r.clients <==> id in reg.clients
  {
    Registry(
      if id in reg.clients then reg.clients[id := ClientStep(reg.clients[id], ev)] else reg.clients,
      CacheStep(reg.qrCodes, id, ev))
  }

  /** A batch of events emitted by the stored handle of `id`. */
  function ApplyEvents(reg: Registry, id: ProfileId, evs: seq<Event>): (r: Registry)
    ensures SameElsewhere(r, reg, id)
    ensures PairingOutcome(reg.qrCodes, r.qrCodes, id, LastPairing(evs))
    ensures id in r.clients <==> id in reg.clients
    ensures id in reg.clients ==>
              && r.clients[id].messageListeners == reg.clients[id].messageListeners
              && r.clients[id].hasInfo == (reg.clients[id].hasInfo || Ready in evs)
  {
    Registry(
      if id in reg.clients then reg.clients[id := RunClient(reg.clients[id], evs)] else reg.clients,
      RunCache(reg.qrCodes, id, evs))
  }

  /** A batch is the events one at a time. */
  lemma {:induction false} ApplyEventsSnoc(reg: Registry, id: ProfileId, evs: seq<Event>, ev: Event)
    ensures ApplyEvents(reg, id, evs + [ev]) == OnEvent(ApplyEvents(reg, id, evs), id, ev)
  {
    var evs' := evs + [ev];
    assert Prefix(evs') == evs;
    assert Last(evs') == ev;
  }

  /** A `qr` event overwrites the cached code: only the latest is kept. */
  lemma QrKeepsLatest(reg: Registry, id: ProfileId, c1: string, c2: string)
    ensures GetQRCode(OnEvent(OnEvent(reg, id, Qr(c1)), id, Qr(c2)), id) == Some(c2)
  {
  }

  /** A `ready` event removes the cached code of its own id and no other. */
  lemma ReadyClearsOwnCode(reg: Registry, id: ProfileId, other: ProfileId)
    requires other != id
    ensures GetQRCode(OnEvent(reg, id, Ready), id) == None
    ensures GetQRCode(OnEvent(reg, id, Ready), other) == GetQRCode(reg, other)
  {
    assert other in reg.qrCodes - {id} <==> other in OnEvent(reg, id, Ready).qrCodes - {id};
  }

  /** An inbound message never changes the registry: forwarding is the
      listeners' business and its failures are swallowed there. */
  lemma InboundKeepsRegistry(reg: Registry, id: ProfileId, m: InboundMessage)
    ensures OnEvent(reg, id, Inbound(m)) == reg
  {
  }

  // ---------------------------------------------------------------------------
  // Manager operations
  // ---------------------------------------------------------------------------

  /** `initClient`: a no-op success when a handle exists. Otherwise a new
      handle is built with the webhook listener when the webhook is on, the
      provider emits `during` while `initialize()` is awaited, and the handle
      is stored only once `initialize()` has returned. If it throws, nothing
      is stored, but codes it already emitted stay cached. */
  function InitClient(reg: Registry, id: ProfileId, webhookUrl: Option<string>, enableWebhook: bool,
                      during: seq<Event>, initError: Option<string>): (r: Step)
    ensures id in reg.clients ==> r == Step(reg, Reply(true, AlreadyInitialized))
    ensures SameElsewhere(r.reg, reg, id)
    ensures id !in reg.clients ==> PairingOutcome(reg.qrCodes, r.reg.qrCodes, id, LastPairing(during))
    ensures id !in reg.clients && initError.Some? ==>
              r.reg.clients == reg.clients && r.reply == Reply(false, initError.value)
    ensures id !in reg.clients && initError.None? ==>
              && id in r.reg.clients
              && r.reg.clients[id].messageListeners == BoundListeners(id, webhookUrl, enableWebhook)
              && r.reg.clients[id].hasInfo == (Ready in during)
              && r.reply == Reply(true, Initialized)
  {
    if id in reg.clients then Step(reg, Reply(true, AlreadyInitialized))
    else
      var handle := RunClient(Client(false, BoundListeners(id, webhookUrl, enableWebhook)), during);
      var codes := RunCache(reg.qrCodes, id, during);
      match initError
      case Some(msg) => Step(Registry(reg.clients, codes), Reply(false, msg))
      case None => Step(Registry(reg.clients[id := handle], codes), Reply(true, Initialized))
  }

  /** `getClient`. */
  function GetClient(reg: Registry, id: ProfileId): (r: Option<Client>)
    ensures r.Some? <==> id in reg.clients
    ensures r.Some? ==> r.value == reg.clients[id]
  {
    if id in reg.clients then Some(reg.clients[id]) else None
  }

  /** `getQRCode` of the manager: the cached code, if any. */
  function GetQRCode(reg: Registry, id: ProfileId): (r: Option<string>)
    ensures r.Some? <==> id in reg.qrCodes
    ensures r.Some? ==> r.value == reg.qrCodes[id]
  {
    if id in reg.qrCodes then Some(reg.qrCodes[id]) else None
  }

  /** The cached code as the profile model tests it (`if (!qrCode)`): a
      cached empty string counts as no code. */
  predicate CodeReady(reg: Registry, id: ProfileId)
    ensures CodeReady(reg, id) <==> id in reg.qrCodes && reg.qrCodes[id] != ""
  {
    Truthy(GetQRCode(reg, id))
  }

  /** `isAuthenticated`: a handle exists, it has `info`, and no code is
      cached, empty or not. */
  predicate IsAuthenticated(reg: Registry, id: ProfileId)
    ensures IsAuthenticated(reg, id) <==> id in reg.clients && reg.clients[id].hasInfo && id !in reg.qrCodes
  {
    && GetClient(reg, id).Some?
    && GetClient(reg, id).value.hasInfo
    && GetQRCode(reg, id).None?
  }

  /** A cached code is authoritative evidence of not being authenticated,
      whatever the handle reports. */
  lemma CachedCodeMeansNotAuthenticated(reg: Registry, id: ProfileId)
    requires id in reg.qrCodes
    ensures !IsAuthenticated(reg, id)
  {
  }

  /** Authentication follows the last pairing event of a stored handle: a
      code makes it unauthenticated, `ready` makes it authenticated. */
  lemma AuthenticationFollowsEvents(reg: Registry, id: ProfileId, code: string)
    requires id in reg.clients
    ensures !IsAuthenticated(OnEvent(reg, id, Qr(code)), id)
    ensures IsAuthenticated(OnEvent(reg, id, Ready), id)
  {
  }

  /** `destroyClient`: "Client not found" when there is no handle. Otherwise
      `destroy()` is awaited first; only when it returns are the handle and
      the cached code removed. When it throws, nothing is removed. */
  function DestroyClient(reg: Registry, id: ProfileId, destroyError: Option<string>): (r: Step)
    ensures id !in reg.clients ==> r == Step(reg, Reply(false, ClientNotFound))
    ensures id in reg.clients && destroyError.Some? ==> r == Step(reg, Reply(false, destroyError.value))
    ensures id in reg.clients && destroyError.None? ==>
              && id !in r.reg.clients && id !in r.reg.qrCodes
              && SameElsewhere(r.reg, reg, id)
              && r.reply == Reply(true, Destroyed)
  {
    match GetClient(reg, id)
    case None => Step(reg, Reply(false, ClientNotFound))
    case Some(_) =>
      match destroyError
      case Some(msg) => Step(reg, Reply(false, msg))
      case None => Step(Registry(reg.clients - {id}, reg.qrCodes - {id}), Reply(true, Destroyed))
  }

  /** `updateWebhook`: "Client not found" when there is no handle. Otherwise
      every message listener of the handle is removed and one is attached
      again iff the new webhook is on, so the handle ends with zero or one
      listener whatever it had before. */
  function UpdateWebhook(reg: Registry, id: ProfileId, webhookUrl: Option<string>, enableWebhook: bool): (r: Step)
    ensures id !in reg.clients ==> r == Step(reg, Reply(false, ClientNotFound))
    ensures id in reg.clients ==>
              && id in r.reg.clients
              && r.reg.clients[id].messageListeners == BoundListeners(id, webhookUrl, enableWebhook)
              && r.reg.clients[id].hasInfo == reg.clients[id].hasInfo
              && r.reg.qrCodes == reg.qrCodes
              && SameElsewhere(r.reg, reg, id)
              && r.reply == Reply(true, WebhookUpdated)
  {
    match GetClient(reg, id)
    case None => Step(reg, Reply(false, ClientNotFound))
    case Some(c) =>
      var rebound := c.(messageListeners := BoundListeners(id, webhookUrl, enableWebhook));
      Step(reg.(clients := reg.clients[id := rebound]), Reply(true, WebhookUpdated))
  }
}

=== FILE: message.dfy ===
/** `sendPrivate` and `sendGroup`: destination formatting plus the no-client
    guard. The provider's `sendMessage` is a function parameter from the
    outgoing message to what it returns or the message it throws. */
module Message {
  import opened Outcomes
  import opened Text
  import opened Manager

  const DirectSuffix := "@c.us"
  const GroupSuffix := "@g.us"

  /** The destination of a private message: kept as given when it already
      ends with `@c.us`, otherwise its digits followed by `@c.us`. */
  function FormatPhone(phone: string): (r: string)
    ensures EndsWith(r, DirectSuffix)
    ensures EndsWith(phone, DirectSuffix) ==> r == phone
    ensures !EndsWith(phone, DirectSuffix) ==>
              && |r| == |Digits(phone)| + |DirectSuffix|
              && AllDigits(r[..|r| - |DirectSuffix|])
              && r[..|r| - |DirectSuffix|] == Digits(phone)
  {
    if EndsWith(phone, DirectSuffix) then phone
    else (AppendEndsWith(Digits(phone), DirectSuffix); Digits(phone) + DirectSuffix)
  }

  /** A destination made of digits only just gets the suffix appended. */
  lemma FormatPhoneDigitsOnly(phone: string)
    requires AllDigits(phone)
    ensures FormatPhone(phone) == phone + DirectSuffix
  {
    assert !EndsWith(phone, DirectSuffix) by {
      if |DirectSuffix| <= |phone| {
        assert phone[|phone| - |DirectSuffix|..][0] == phone[|phone| - |DirectSuffix|];
        assert IsDigit(phone[|phone| - |DirectSuffix|]);
      }
    }
  }

  /** Formatting a formatted destination changes nothing. */
  lemma FormatPhoneIdempotent(phone: string)
    ensures FormatPhone(FormatPhone(phone)) == FormatPhone(phone)
  {
  }

  /** The destination of a group message: kept when it already ends with
      `@g.us`, otherwise the whole input, unstripped, followed by `@g.us`. */
  function FormatGroup(groupId: string): (r: string)
    ensures EndsWith(r, GroupSuffix)
    ensures EndsWith(groupId, GroupSuffix) ==> r == groupId
    ensures !EndsWith(groupId, GroupSuffix) ==>
              |r| == |groupId| + |GroupSuffix| && r[..|groupId|] == groupId
  {
    if EndsWith(groupId, GroupSuffix) then groupId
    else (AppendEndsWith(groupId, GroupSuffix); groupId + GroupSuffix)
  }

  lemma FormatGroupIdempotent(groupId: string)
    ensures FormatGroup(FormatGroup(groupId)) == FormatGroup(groupId)
  {
  }

  datatype Outgoing = Outgoing(to: string, body: string)

  /** The provider's `id` object; only its `id` field is read. */
  datatype MessageKey = MessageKey(id: string, serialized: string)

  /** What `sendMessage` resolves to. */
  datatype SentMessage = SentMessage(id: MessageKey, timestamp: int)

  /** The `data` of a successful send. */
  datatype Receipt = Receipt(id: string, timestamp: int)

  /** The message handed to the provider, if any, and the façade's answer. */
  datatype SendResult = SendResult(sent: Option<Outgoing>, response: Response<Receipt>)

  /** The common tail of both sends: the guard, the provider call and the
      shaping of its outcome. */
  function Send(reg: Registry, profileId: ProfileId, target: string, body: string,
                provider: Outgoing -> Response<SentMessage>): (r: SendResult)
    ensures GetClient(reg, profileId).None? ==> r == SendResult(None, Fail(NotInitialized))
    ensures GetClient(reg, profileId).Some? ==>
              && r.sent == Some(Outgoing(target, body))
              && match provider(Outgoing(target, body))
                 case Ok(m) => r.response == Ok(Receipt(m.id.id, m.timestamp))
                 case Fail(e) => r.response == Fail(e)
  {
    match GetClient(reg, profileId)
    case None => SendResult(None, Fail(NotInitialized))
    case Some(_) =>
      var out := Outgoing(target, body);
      match provider(out)
      case Ok(m) => SendResult(Some(out), Ok(Receipt(m.id.id, m.timestamp)))
      case Fail(e) => SendResult(Some(out), Fail(e))
  }

  /** `sendPrivate`: only the existence of a handle is checked, not that it
      is authenticated; the provider sees the formatted phone. */
  function SendPrivate(reg: Registry, profileId: ProfileId, phone: string, body: string,
                       provider: Outgoing -> Response<SentMessage>): (r: SendResult)
    ensures profileId !in reg.clients ==> r == SendResult(None, Fail(NotInitialized))
    ensures profileId in reg.clients ==>
              && r.sent == Some(Outgoing(FormatPhone(phone), body))
              && (r.response.Ok? <==> provider(r.sent.value).Ok?)
              && (r.response.Ok? ==>
                    r.response.data == Receipt(provider(r.sent.value).data.id.id, provider(r.sent.value).data.timestamp))
              && (r.response.Fail? ==> r.response.message == provider(r.sent.value).message)
  {
    Send(reg, profileId, FormatPhone(phone), body, provider)
  }

  /** `sendGroup`: as `sendPrivate`, with the group formatting. */
  function SendGroup(reg: Registry, profileId: ProfileId, groupId: string, body: string,
                     provider: Outgoing -> Response<SentMessage>): (r: SendResult)
    ensures profileId !in reg.clients ==> r == SendResult(None, Fail(NotInitialized))
    ensures profileId in reg.clients ==>
              && r.sent == Some(Outgoing(FormatGroup(groupId), body))
              && (r.response.Ok? <==> provider(r.sent.value).Ok?)
              && (r.response.Ok? ==>
                    r.response.data == Receipt(provider(r.sent.value).data.id.id, provider(r.sent.value).data.timestamp))
              && (r.response.Fail? ==> r.response.message == provider(r.sent.value).message)
  {
    Send(reg, profileId, FormatGroup(groupId), body, provider)
  }
}

=== FILE: outcomes.dfy ===
/** Result shapes shared by the session manager, the profile model and the
    query/send façades. */
module Outcomes {

  /** A value that may be missing: `undefined`/`null` in the source. */
  datatype Option<+T> = None | Some(value: T)

  /** The `{ success, message }` object every manager operation and the
      profile update/delete operations resolve to. */
  datatype Reply = Reply(success: bool, message: string)

  /** A `{ success: true, data }` or `{ success: false, message }` object.
      A provider exception is also carried by `Fail`, with its message. */
  datatype Response<+T> = Ok(data: T) | Fail(message: string)

  /** JavaScript truthiness of an optional string: present and non-empty. */
  predicate Truthy(s: Option<string>) {
    s.Some? && s.value != ""
  }
}

=== FILE: profile.dfy ===
/** The profile model's use of the session registry: the order of registry
    calls in create, update and delete, and the pairing-code acquisition
    protocol with its bounded poll. The database is reduced to whether a row
    exists or was affected; sleeps become poll iterations. */
module Profile {
  import opened Outcomes
  import opened Manager

  /** The poll runs at most this many one-second iterations. */
  const MaxPolls: nat := 10

  const ProfileNotFound := "Profile not found"
  const CreateFailed := "Failed to create profile"
  const AlreadyAuthenticated := "WhatsApp client is already authenticated. No need for QR code."
  const QrFailed := "Failed to generate QR code. Please try again."
  const Updated := "Profile updated successfully"
  const Deleted := "Profile deleted successfully"

  /** The calls a profile operation makes, in order: a database query, or a
      state-changing call into the manager. */
  datatype Call =
    | Db
    | Init(id: ProfileId, webhookUrl: Option<string>, enableWebhook: bool)
    | Destroy(id: ProfileId)
    | Rebind(id: ProfileId, webhookUrl: Option<string>, enableWebhook: bool)

  /** The webhook columns of a stored profile row. */
  datatype ProfileRow = ProfileRow(webhookUrl: Option<string>, enableWebhook: bool)

  /** The `data` of a successful create. */
  datatype ProfileData = ProfileData(id: ProfileId, name: string, token: string,
                                     webhookUrl: Option<string>, enableWebhook: bool)

  datatype Outcome<+T> = Outcome(reg: Registry, calls: seq<Call>, response: T)

  datatype PollOutcome = PollOutcome(reg: Registry, polls: nat)

  datatype QrOutcome = QrOutcome(reg: Registry, calls: seq<Call>, polls: nat, response: Response<string>)

  // ---------------------------------------------------------------------------
  // create, update, delete
  // ---------------------------------------------------------------------------

  /** `create`: `insertId` is `None` when the insert affected no row. After a
      successful insert the client is initialised and the outcome of that
      initialisation is ignored: the profile is reported created either way. */
  function Create(reg: Registry, insertId: Option<ProfileId>, name: string, token: string,
                  webhookUrl: Option<string>, enableWebhook: bool,
                  during: seq<Event>, initError: Option<string>): (r: Outcome<Response<ProfileData>>)
    ensures insertId.None? ==> r == Outcome(reg, [Db], Fail(CreateFailed))
    ensures insertId.Some? ==>
              && r.calls == [Db, Init(insertId.value, webhookUrl, enableWebhook)]
              && r.reg == InitClient(reg, insertId.value, webhookUrl, enableWebhook, during, initError).reg
              && r.response == Ok(ProfileData(insertId.value, name, token, webhookUrl, enableWebhook))
  {
    match insertId
    case None => Outcome(reg, [Db], Fail(CreateFailed))
    case Some(id) =>
      var init := InitClient(reg, id, webhookUrl, enableWebhook, during, initError);
      Outcome(init.reg, [Db, Init(id, webhookUrl, enableWebhook)],
              Ok(ProfileData(id, name, token, webhookUrl, enableWebhook)))
  }

  /** `update`: the webhook is rebound only after the update affected a row;
      the rebinding's own result is ignored. */
  function Update(reg: Registry, id: ProfileId, affected: bool,
                  webhookUrl: Option<string>, enableWebhook: bool): (r: Outcome<Reply>)
    ensures !affected ==> r == Outcome(reg, [Db], Reply(false, ProfileNotFound))
    ensures affected ==>
              && r.calls == [Db, Rebind(id, webhookUrl, enableWebhook)]
              && r.reg == UpdateWebhook(reg, id, webhookUrl, enableWebhook).reg
              && r.response == Reply(true, Updated)
  {
    if !affected then Outcome(reg, [Db], Reply(false, ProfileNotFound))
    else
      var rebind := UpdateWebhook(reg, id, webhookUrl, enableWebhook);
      Outcome(rebind.reg, [Db, Rebind(id, webhookUrl, enableWebhook)], Reply(true, Updated))
  }

  /** `delete`: the client is destroyed before the row is deleted, even when
      no row turns out to exist; the answer depends only on the rows the
      delete affected, never on the destroy. */
  function Delete(reg: Registry, id: ProfileId, affected: bool, destroyError: Option<string>): (r: Outcome<Reply>)
    ensures r.calls == [Destroy(id), Db]
    ensures r.reg == DestroyClient(reg, id, destroyError).reg
    ensures r.response.success == affected
    ensures r.response.message == if affected then Deleted else ProfileNotFound
  {
    var destroyed := DestroyClient(reg, id, destroyError);
    Outcome(destroyed.reg, [Destroy(id), Db],
            if affected then Reply(true, Deleted) else Reply(false, ProfileNotFound))
  }

  // ---------------------------------------------------------------------------
  // The bounded poll
  // ---------------------------------------------------------------------------

  /** The events the handle emits during the `i`-th sleep of the poll. */
  function BatchAt(pending: seq<seq<Event>>, i: nat): seq<Event> {
    if i < |pending| then pending[i] else []
  }

  /** The registry after the sleeps numbered `from` up to `to - 1`. */
  function Advance(reg: Registry, id: ProfileId, pending: seq<seq<Event>>, from: nat, to: nat): Registry
    decreases to
  {
    if to <= from then reg
    else ApplyEvents(Advance(reg, id, pending, from, to - 1), id, BatchAt(pending, to - 1))
  }

  /** Taking the first sleep out of a run of sleeps. */
  lemma {:induction false} AdvanceShift(reg: Registry, id: ProfileId, pending: seq<seq<Event>>, from: nat, to: nat)
    requires from < to
    ensures Advance(ApplyEvents(reg, id, BatchAt(pending, from)), id, pending, from + 1, to)
         == Advance(reg, id, pending, from, to)
  {
    if to > from + 1 {
      AdvanceShift(reg, id, pending, from, to - 1);
    }
  }

  lemma AdvanceShiftAll(reg: Registry, id: ProfileId, pending: seq<seq<Event>>, from: nat)
    ensures forall to: nat :: from < to ==>
              Advance(ApplyEvents(reg, id, BatchAt(pending, from)), id, pending, from + 1, to)
              == Advance(reg, id, pending, from, to)
  {
    forall to: nat | from < to
      ensures Advance(ApplyEvents(reg, id, BatchAt(pending, from)), id, pending, from + 1, to)
              == Advance(reg, id, pending, from, to)
    {
      AdvanceShift(reg, id, pending, from, to);
    }
  }

  /** The loop `for (i = done; i < 10; i++) { sleep; read code; break on a
      code }`: it stops at the first iteration that finds a code, and after
      the tenth at the latest. `polls` is the number of iterations run. */
  function Poll(reg: Registry, id: ProfileId, pending: seq<seq<Event>>, done: nat): (p: PollOutcome)
    requires done < MaxPolls
    decreases MaxPolls - done
    ensures done < p.polls <= MaxPolls
    ensures p.reg == Advance(reg, id, pending, done, p.polls)
    ensures CodeReady(p.reg, id) || p.polls == MaxPolls
    ensures forall j: nat :: done < j < p.polls ==> !CodeReady(Advance(reg, id, pending, done, j), id)
  {
    var slept := ApplyEvents(reg, id, BatchAt(pending, done));
    assert slept == Advance(reg, id, pending, done, done + 1);
    if CodeReady(slept, id) || done + 1 == MaxPolls then PollOutcome(slept, done + 1)
    else
      AdvanceShiftAll(reg, id, pending, done);
      Poll(slept, id, pending, done + 1)
  }

  // ---------------------------------------------------------------------------
  // Pairing-code acquisition
  // ---------------------------------------------------------------------------

  /** The final `getQRCode` check after the branches. */
  function Final(reg: Registry, id: ProfileId, calls: seq<Call>, polls: nat): (r: QrOutcome)
    ensures r.reg == reg && r.calls == calls && r.polls == polls
    ensures r.response.Ok? <==> CodeReady(reg, id)
    ensures r.response.Ok? ==> r.response.data == reg.qrCodes[id]
    ensures r.response.Fail? ==> r.response.message == QrFailed
  {
    QrOutcome(reg, calls, polls, if CodeReady(reg, id) then Ok(reg.qrCodes[id]) else Fail(QrFailed))
  }

  /** `Profile.getQRCode`. `row` is the profile row, if one exists; `during`
      and `initError` describe the `initialize()` the call may trigger,
      `destroyError` the `destroy()` it may trigger, and `pending[i]` the
      events emitted during the `i`-th sleep of the poll. */
  function GetQRCode(reg: Registry, id: ProfileId, row: Option<ProfileRow>, during: seq<Event>,
                     initError: Option<string>, destroyError: Option<string>,
                     pending: seq<seq<Event>>): (r: QrOutcome)
    // No row: no registry call at all.
    ensures row.None? ==> r == QrOutcome(reg, [Db], 0, Fail(ProfileNotFound))
    // Already authenticated: refused, no destroy, no init.
    ensures row.Some? && IsAuthenticated(reg, id) ==>
              r == QrOutcome(reg, [Db], 0, Fail(AlreadyAuthenticated))
    // A handle with a cached code: that very code, without touching anything.
    ensures row.Some? && id in reg.clients && CodeReady(reg, id) ==>
              r == QrOutcome(reg, [Db], 0, Ok(reg.qrCodes[id]))
    // A stale handle without a code: destroy, then init, then poll.
    ensures row.Some? && !IsAuthenticated(reg, id) && id in reg.clients && !CodeReady(reg, id) ==>
              && r.calls == [Db, Destroy(id), Init(id, row.value.webhookUrl, row.value.enableWebhook)]
              && 1 <= r.polls
    // No handle: init (even with a code cached), never destroy, then poll.
    ensures row.Some? && id !in reg.clients ==>
              && r.calls == [Db, Init(id, row.value.webhookUrl, row.value.enableWebhook)]
              && 1 <= r.polls
    ensures r.polls <= MaxPolls
    // In both polling branches the registry is the one the poll leaves after
    // the (destroy and) init, and the poll stopped at its first hit.
    ensures row.Some? && !IsAuthenticated(reg, id) && !(id in reg.clients && CodeReady(reg, id)) ==>
              var before := if id in reg.clients then DestroyClient(reg, id, destroyError).reg else reg;
              var started := InitClient(before, id, row.value.webhookUrl, row.value.enableWebhook, during, initError).reg;
              && r.reg == Advance(started, id, pending, 0, r.polls)
              && (CodeReady(r.reg, id) || r.polls == MaxPolls)
              && (forall j: nat :: 0 < j < r.polls ==> !CodeReady(Advance(started, id, pending, 0, j), id))
    // The answer is the code cached at the final check, if there is one.
    ensures row.Some? && !IsAuthenticated(reg, id) ==>
              && (r.response.Ok? <==> CodeReady(r.reg, id))
              && (r.response.Ok? ==> r.response.data == r.reg.qrCodes[id])
              && (r.response.Fail? ==> r.response.message == QrFailed)
  {
    match row
    case None => QrOutcome(reg, [Db], 0, Fail(ProfileNotFound))
    case Some(p) =>
      if IsAuthenticated(reg, id) then QrOutcome(reg, [Db], 0, Fail(AlreadyAuthenticated))
      else if GetClient(reg, id).Some? && !CodeReady(reg, id) then
        var destroyed := DestroyClient(reg, id, destroyError).reg;
        var started := InitClient(destroyed, id, p.webhookUrl, p.enableWebhook, during, initError).reg;
        var polled := Poll(started, id, pending, 0);
        Final(polled.reg, id, [Db, Destroy(id), Init(id, p.webhookUrl, p.enableWebhook)], polled.polls)
      else if GetClient(reg, id).None? then
        var started := InitClient(reg, id, p.webhookUrl, p.enableWebhook, during, initError).reg;
        var polled := Poll(started, id, pending, 0);
        Final(polled.reg, id, [Db, Init(id, p.webhookUrl, p.enableWebhook)], polled.polls)
      else Final(reg, id, [Db], 0)
  }

  // ---------------------------------------------------------------------------
  // What the poll finds
  // ---------------------------------------------------------------------------

  /** No `qr` event among `evs`. */
  predicate NoCodeIssued(evs: seq<Event>) {
    forall e :: e in evs ==> !e.Qr?
  }

  /** Without a `qr` event the cache cannot gain a usable code for `id`. */
  lemma NoIssueNoCode(before: map<ProfileId, string>, after: map<ProfileId, string>, id: ProfileId, evs: seq<Event>)
    requires PairingOutcome(before, after, id, LastPairing(evs))
    requires NoCodeIssued(evs)
    requires !(id in before && before[id] != "")
    ensures !(id in after && after[id] != "")
  {
  }

  /** Quiet sleeps keep the cache without a usable code. */
  lemma {:induction false} QuietPollsNoCode(reg: Registry, id: ProfileId, pending: seq<seq<Event>>, j: nat)
    requires !CodeReady(reg, id)
    requires forall i :: 0 <= i < j ==> NoCodeIssued(BatchAt(pending, i))
    ensures !CodeReady(Advance(reg, id, pending, 0, j), id)
  {
    if j > 0 {
      QuietPollsNoCode(reg, id, pending, j - 1);
      var before := Advance(reg, id, pending, 0, j - 1);
      NoIssueNoCode(before.qrCodes, ApplyEvents(before, id, BatchAt(pending, j - 1)).qrCodes,
                    id, BatchAt(pending, j - 1));
    }
  }

  /** When no code is issued during the ten sleeps, the poll runs all ten
      iterations and ends without a code. */
  lemma PollTimesOut(reg: Registry, id: ProfileId, pending: seq<seq<Event>>)
    requires !CodeReady(reg, id)
    requires forall i :: 0 <= i < MaxPolls ==> NoCodeIssued(BatchAt(pending, i))
    ensures Poll(reg, id, pending, 0).polls == MaxPolls
    ensures !CodeReady(Poll(reg, id, pending, 0).reg, id)
  {
    var p := Poll(reg, id, pending, 0);
    QuietPollsNoCode(reg, id, pending, p.polls);
  }

  /** When the first code is issued during sleep `k`, and is the last pairing
      event of that sleep, the poll stops after iteration `k + 1` holding
      exactly that code. */
  lemma PollFindsFirstCode(reg: Registry, id: ProfileId, pending: seq<seq<Event>>, k: nat, code: string)
    requires !CodeReady(reg, id)
    requires k < MaxPolls
    requires forall i :: 0 <= i < k ==> NoCodeIssued(BatchAt(pending, i))
    requires LastPairing(BatchAt(pending, k)) == Some(Qr(code)) && code != ""
    ensures Poll(reg, id, pending, 0).polls == k + 1
    ensures Manager.GetQRCode(Poll(reg, id, pending, 0).reg, id) == Some(code)
  {
    var p := Poll(reg, id, pending, 0);
    QuietPollsNoCode(reg, id, pending, k);
    assert CodeReady(Advance(reg, id, pending, 0, k + 1), id);
    if p.polls < k + 1 {
      QuietPollsNoCode(reg, id, pending, p.polls);
      assert false;
    }
  }

  /** Timeout: with no handle, no code cached and no code issued
      by the new handle within the ten sleeps, acquisition fails after ten
      polls. */
  lemma AcquireTimesOut(reg: Registry, id: ProfileId, row: Option<ProfileRow>, during: seq<Event>,
                        initError: Option<string>, destroyError: Option<string>, pending: seq<seq<Event>>)
    requires row.Some? && id !in reg.clients && !CodeReady(reg, id)
    requires NoCodeIssued(during)
    requires forall i :: 0 <= i < MaxPolls ==> NoCodeIssued(BatchAt(pending, i))
    ensures GetQRCode(reg, id, row, during, initError, destroyError, pending).response == Fail(QrFailed)
    ensures GetQRCode(reg, id, row, during, initError, destroyError, pending).polls == MaxPolls
  {
    var started := InitClient(reg, id, row.value.webhookUrl, row.value.enableWebhook, during, initError).reg;
    NoIssueNoCode(reg.qrCodes, started.qrCodes, id, during);
    PollTimesOut(started, id, pending);
  }

  /** With no handle and no code cached, acquisition returns the first code
      the new handle issues during the poll, after as many polls as it took. */
  lemma AcquireReturnsFirstCode(reg: Registry, id: ProfileId, row: Option<ProfileRow>, during: seq<Event>,
                                initError: Option<string>, destroyError: Option<string>,
                                pending: seq<seq<Event>>, k: nat, code: string)
    requires row.Some? && id !in reg.clients && !CodeReady(reg, id)
    requires NoCodeIssued(during)
    requires k < MaxPolls
    requires forall i :: 0 <= i < k ==> NoCodeIssued(BatchAt(pending, i))
    requires LastPairing(BatchAt(pending, k)) == Some(Qr(code)) && code != ""
    ensures GetQRCode(reg, id, row, during, initError, destroyError, pending).response == Ok(code)
    ensures GetQRCode(reg, id, row, during, initError, destroyError, pending).polls == k + 1
  {
    var started := InitClient(reg, id, row.value.webhookUrl, row.value.enableWebhook, during, initError).reg;
    NoIssueNoCode(reg.qrCodes, started.qrCodes, id, during);
    PollFindsFirstCode(started, id, pending, k, code);
  }

  /** A stale handle without a code whose `destroy()` succeeds: the fresh
      handle started by `initClient` issues the code, and acquisition returns
      the first code issued during the poll, after as many polls as it took. */
  lemma AcquireAfterDestroyReturnsFirstCode(reg: Registry, id: ProfileId, row: Option<ProfileRow>, during: seq<Event>,
                                            initError: Option<string>, pending: seq<seq<Event>>, k: nat, code: string)
    requires row.Some? && id in reg.clients && !IsAuthenticated(reg, id) && !CodeReady(reg, id)
    requires NoCodeIssued(during)
    requires k < MaxPolls
    requires forall i :: 0 <= i < k ==> NoCodeIssued(BatchAt(pending, i))
    requires LastPairing(BatchAt(pending, k)) == Some(Qr(code)) && code != ""
    ensures GetQRCode(reg, id, row, during, initError, None, pending).response == Ok(code)
    ensures GetQRCode(reg, id, row, during, initError, None, pending).polls == k + 1
  {
    var destroyed := DestroyClient(reg, id, None).reg;
    var started := InitClient(destroyed, id, row.value.webhookUrl, row.value.enableWebhook, during, initError).reg;
    NoIssueNoCode(destroyed.qrCodes, started.qrCodes, id, during);
    PollFindsFirstCode(started, id, pending, k, code);
  }

  /** While a code is cached for a live handle, asking twice returns the same
      code both times and never initialises anything. */
  lemma AcquireIdempotentWhileCached(reg: Registry, id: ProfileId, row: ProfileRow,
                                     during: seq<Event>, initError: Option<string>, destroyError: Option<string>,
                                     pending: seq<seq<Event>>)
    requires id in reg.clients && CodeReady(reg, id)
    ensures var first := GetQRCode(reg, id, Some(row), during, initError, destroyError, pending);
            var second := GetQRCode(first.reg, id, Some(row), during, initError, destroyError, pending);
            && first.response == second.response == Ok(reg.qrCodes[id])
            && first.calls == second.calls == [Db]
  {
  }

  /** A `destroy()` that throws leaves the stale handle in place; the `initClient`
      that follows is then a no-op ("Client already initialized"), so no new
      handle is started and, unless the stale handle itself issues a code,
      acquisition times out with the stale handle still registered. */
  lemma FailedDestroyKeepsStaleHandle(reg: Registry, id: ProfileId, row: ProfileRow, during: seq<Event>,
                                      initError: Option<string>, err: string, pending: seq<seq<Event>>)
    requires id in reg.clients && !IsAuthenticated(reg, id) && !CodeReady(reg, id)
    requires forall i :: 0 <= i < MaxPolls ==> NoCodeIssued(BatchAt(pending, i))
    ensures InitClient(DestroyClient(reg, id, Some(err)).reg, id, row.webhookUrl, row.enableWebhook, during, initError)
            == Step(reg, Reply(true, AlreadyInitialized))
    ensures GetQRCode(reg, id, Some(row), during, initError, Some(err), pending).response == Fail(QrFailed)
    ensures id in GetQRCode(reg, id, Some(row), during, initError, Some(err), pending).reg.clients
  {
    PollTimesOut(reg, id, pending);
    var p := Poll(reg, id, pending, 0);
    assert id in Advance(reg, id, pending, 0, p.polls).clients by {
      AdvanceKeepsHandle(reg, id, pending, p.polls);
    }
  }

  /** The poll's events never add or remove the handle. */
  lemma {:induction false} AdvanceKeepsHandle(reg: Registry, id: ProfileId, pending: seq<seq<Event>>, j: nat)
    ensures id in Advance(reg, id, pending, 0, j).clients <==> id in reg.clients
  {
    if j > 0 {
      AdvanceKeepsHandle(reg, id, pending, j - 1);
    }
  }
}

=== FILE: relay.dfy ===
/** Webhook forwarding: each message listener of a handle turns an inbound
    message into one POST of a `{profileId, from, to, message, timestamp}`
    envelope. Delivery is fire-and-forget; its failures are caught inside
    the listener, so nothing here touches the registry. */
module Relay {
  import opened Outcomes
  import opened Manager

  datatype Envelope = Envelope(profileId: ProfileId, from: string, to: string, message: string, timestamp: string)

  datatype Post = Post(url: string, envelope: Envelope)

  /** The POSTs one inbound message causes on a handle, one per listener in
      attachment order; `now` stands for the ISO timestamp of the clock. */
  function Deliveries(c: Client, m: InboundMessage, now: string): (posts: seq<Post>)
    ensures |posts| == |c.messageListeners|
    ensures forall i :: 0 <= i < |posts| ==>
              && posts[i].url == c.messageListeners[i].url
              && posts[i].envelope == Envelope(c.messageListeners[i].profileId, m.from, m.to, m.body, now)
    decreases |c.messageListeners|
  {
    if c.messageListeners == [] then []
    else
      var l := c.messageListeners[0];
      [Post(l.url, Envelope(l.profileId, m.from, m.to, m.body, now))]
        + Deliveries(c.(messageListeners := c.messageListeners[1..]), m, now)
  }

  /** Rebinding twice never leaves two listeners firing: after the second
      `updateWebhook` one inbound message causes exactly one POST, to the
      second URL, carrying the profile id and the message's fields. */
  lemma RebindDeliversOnce(reg: Registry, id: ProfileId, url1: Option<string>, on1: bool,
                           url2: string, m: InboundMessage, now: string)
    requires id in reg.clients
    requires url2 != ""
    ensures var reg' := UpdateWebhook(UpdateWebhook(reg, id, url1, on1).reg, id, Some(url2), true).reg;
            Deliveries(reg'.clients[id], m, now) == [Post(url2, Envelope(id, m.from, m.to, m.body, now))]
  {
  }

  /** With the webhook off, an inbound message causes no POST at all, however
      many listeners the handle had. */
  lemma DisabledDeliversNothing(reg: Registry, id: ProfileId, url: Option<string>, m: InboundMessage, now: string)
    requires id in reg.clients
    ensures Deliveries(UpdateWebhook(reg, id, url, false).reg.clients[id], m, now) == []
  {
  }
}

=== FILE: scenarios.dfy ===
/** The model's contracts instantiated on literal inputs. */
module Scenarios {
  import opened Outcomes
  import opened Text
  import opened Manager
  import Message
  import Profile

  /** The provider emits the code "ABC123" before `initialize()` returns: the
      handle is stored, the code is cached and the session is not
      authenticated. */
  lemma CodeBeforeReady()
    ensures var r := InitClient(Empty, "p1", None, false, [Qr("ABC123")], None);
            && r.reply == Reply(true, Initialized)
            && GetQRCode(r.reg, "p1") == Some("ABC123")
            && !IsAuthenticated(r.reg, "p1")
            && r.reg.clients["p1"].messageListeners == []
  {
    var r := InitClient(Empty, "p1", None, false, [Qr("ABC123")], None);
    assert LastPairing([Qr("ABC123")]) == Some(Qr("ABC123"));
  }

  /** The provider becomes ready without issuing a code: authenticated, and
      no code is cached. */
  lemma ReadyWithoutCode()
    ensures var r := InitClient(Empty, "p1", None, false, [Ready], None);
            && IsAuthenticated(r.reg, "p1")
            && GetQRCode(r.reg, "p1") == None
  {
    var r := InitClient(Empty, "p1", None, false, [Ready], None);
    assert LastPairing([Ready]) == Some(Ready);
    assert Ready in [Ready];
  }

  /** A second `initClient` for the same id creates nothing: it answers
      "already initialized" and leaves the first handle in place. */
  lemma SecondInitIsNoOp(during: seq<Event>, again: seq<Event>)
    ensures var first := InitClient(Empty, "p1", Some("http://hook"), true, during, None);
            var second := InitClient(first.reg, "p1", None, false, again, None);
            && second.reply == Reply(true, AlreadyInitialized)
            && second.reg == first.reg
            && |second.reg.clients["p1"].messageListeners| == 1
  {
  }

  /** A direct destination without the suffix gets it appended. */
  lemma PlainNumberGetsSuffix()
    ensures Message.FormatPhone("15551234567") == "15551234567@c.us"
  {
    var phone := "15551234567";
    assert AllDigits(phone);
    Message.FormatPhoneDigitsOnly(phone);
  }

  /** Punctuation is stripped from a direct destination. */
  lemma PunctuationIsStripped()
    ensures Message.FormatPhone("+1-2") == "12@c.us"
  {
    var phone := "+1-2";
    assert !EndsWith(phone, Message.DirectSuffix);
    assert phone == "+" + "1" + "-" + "2";
    DigitsAppend("+" + "1" + "-", "2");
    DigitsAppend("+" + "1", "-");
    DigitsAppend("+", "1");
    DigitsOfChar('+');
    DigitsOfChar('1');
    DigitsOfChar('-');
    DigitsOfChar('2');
  }

  /** A group destination is suffixed without stripping anything. */
  lemma GroupIdKeepsCharacters()
    ensures Message.FormatGroup("1203-63") == "1203-63@g.us"
  {
    assert !EndsWith("1203-63", Message.GroupSuffix);
  }

  /** Destroying a live handle leaves neither the handle nor a code behind. */
  lemma DestroyPurgesBoth(code: string)
    ensures var started := InitClient(Empty, "p1", None, false, [Qr(code)], None).reg;
            var r := DestroyClient(started, "p1", None);
            && r.reply == Reply(true, Destroyed)
            && GetClient(r.reg, "p1") == None
            && GetQRCode(r.reg, "p1") == None
  {
  }

  /** The code arrives only during the eleventh sleep, after the ceiling of
      ten: acquisition fails. */
  lemma LateCodeTimesOut()
    ensures var pending := seq(10, i => []) + [[Qr("XYZ")]];
            Profile.GetQRCode(Empty, "p9", Some(Profile.ProfileRow(None, false)), [], None, None, pending).response
              == Fail(Profile.QrFailed)
  {
    var pending := seq(10, i => []) + [[Qr("XYZ")]];
    forall i | 0 <= i < Profile.MaxPolls
      ensures Profile.NoCodeIssued(Profile.BatchAt(pending, i))
    {
      assert pending[i] == [];
    }
    Profile.AcquireTimesOut(Empty, "p9", Some(Profile.ProfileRow(None, false)), [], None, None, pending);
  }

  /** The code arrives during the sixth sleep: acquisition returns it after six
      polls. */
  lemma SixthSleepCodeReturned()
    ensures var pending := seq(5, i => []) + [[Qr("XYZ")]];
            var r := Profile.GetQRCode(Empty, "p9", Some(Profile.ProfileRow(None, false)), [], None, None, pending);
            r.response == Ok("XYZ") && r.polls == 6
  {
    var pending := seq(5, i => []) + [[Qr("XYZ")]];
    forall i | 0 <= i < 5
      ensures Profile.NoCodeIssued(Profile.BatchAt(pending, i))
    {
      assert pending[i] == [];
    }
    assert Profile.BatchAt(pending, 5) == [Qr("XYZ")];
    assert LastPairing([Qr("XYZ")]) == Some(Qr("XYZ"));
    Profile.AcquireReturnsFirstCode(Empty, "p9", Some(Profile.ProfileRow(None, false)), [], None, None, pending, 5, "XYZ");
  }

  /** `initialize()` throws after the provider emitted "X": the code stays
      cached with no handle stored, and the next acquisition returns that
      stale code at its first poll. */
  lemma StaleCodeAfterFailedInit()
    ensures var failed := InitClient(Empty, "p", None, false, [Qr("X")], Some("boom"));
            var r := Profile.GetQRCode(failed.reg, "p", Some(Profile.ProfileRow(None, false)), [], None, None, []);
            && !failed.reply.success
            && "p" !in failed.reg.clients
            && r.response == Ok("X") && r.polls == 1
  {
    assert LastPairing([Qr("X")]) == Some(Qr("X"));
  }
}

=== FILE: seqs.dfy ===
/** Taking a non-empty sequence apart at its end, the direction in which
    event batches are folded. */
module Seqs {

  function Last<T>(s: seq<T>): T
    requires s != []
  {
    s[|s| - 1]
  }

  function Prefix<T>(s: seq<T>): seq<T>
    requires s != []
  {
    s[..|s| - 1]
  }

  lemma PrefixLast<T>(s: seq<T>)
    requires s != []
    ensures s == Prefix(s) + [Last(s)]
  {
  }
}

=== FILE: text.dfy ===
/** The two string primitives the send façade relies on:
    `String.prototype.endsWith` and `replace(/\D/g, '')`. */
module Text {

  predicate EndsWith(s: string, suffix: string) {
    |suffix| <= |s| && s[|s| - |suffix|..] == suffix
  }

  /** What `\d` matches without the `u` flag: the ASCII digits. */
  predicate IsDigit(c: char) {
    '0' <= c <= '9'
  }

  predicate AllDigits(s: string) {
    forall i :: 0 <= i < |s| ==> IsDigit(s[i])
  }

  /** The digits of `s`, in their original order. */
  function Digits(s: string): (r: string)
    ensures AllDigits(r)
    ensures |r| <= |s|
    ensures AllDigits(s) ==> r == s
  {
    if s == [] then []
    else if IsDigit(s[0]) then [s[0]] + Digits(s[1..])
    else Digits(s[1..])
  }

  /** Stripping works character by character: the digits of a concatenation
      are the digits of each part, in order. Together with the one-character
      case this pins `Digits` down as an order-preserving filter. */
  lemma {:induction false} DigitsAppend(a: string, b: string)
    ensures Digits(a + b) == Digits(a) + Digits(b)
  {
    if a == [] {
      assert a + b == b;
    } else {
      assert (a + b)[0] == a[0];
      assert (a + b)[1..] == a[1..] + b;
      DigitsAppend(a[1..], b);
    }
  }

  /** A single character survives stripping iff it is a digit. */
  lemma DigitsOfChar(c: char)
    ensures Digits([c]) == (if IsDigit(c) then [c] else [])
  {
    assert [c][1..] == [];
  }

  /** Appending a suffix makes the result end with it. */
  lemma AppendEndsWith(s: string, suffix: string)
    ensures EndsWith(s + suffix, suffix)
  {
    assert (s + suffix)[|s|..] == suffix;
  }
}
